=== FILE: README.md ===
# Batch office-to-PDF converter: a Dafny model of its decision layer

The repository converts Word, PowerPoint and Excel files to PDF in bulk. Its
`BatchConverter` class (batch-converter.mjs) lists an input folder, keeps the
office documents whose PDF does not exist yet, converts them a few at a time
through the Nutrient engine, and prints a report. This project models the pure
decisions inside that class and proves their properties:

- `node_path.dfy`, module `NodePath`: Node's POSIX `path.extname` and
  `path.basename(name, suffix)` on a single directory entry name. An extension
  starts at the last dot. A hidden file such as `.docx` has no extension, and
  neither does `..`.
- `discovery.dfy`, module `Discovery`: `getFilesToConvert` as a pure filter.
  Its inputs are the folder listing (`None` when the folder is missing or cannot
  be read) and the names already present in the output folder. It also holds
  the output-name derivation shared by discovery (line 50) and conversion
  (line 73). It proves the idempotence facts that let re-runs skip converted
  files.
- `chunking.dfy`, module `Chunking`: the `chunkArray` loop and its partition
  laws. Concatenating the chunks gives back the input. No chunk is empty or
  larger than `size`, all but the last are full, there are ceil(n/size) chunks,
  and these laws determine the chunks uniquely.
- `conversion.dfy`, module `Conversion`: `convertSingleFile` and
  `convertBatch`. Reading the file, loading it, exporting it and writing the PDF
  together form one opaque attempt per file. Line 101 catches every error, so
  the attempt is a total function. An attempt either completes, throws without
  leaving an output file, or throws after the write at line 85 has created the
  output file (a partial write, or the `stat` at line 88 failing). An attempt
  leaves no file when it throws before line 85, or inside the write before the
  file is created (the output cannot be opened). The batch returns one result
  per name, in input order.
- `report.dfy`, module `Report`: the integer part of `generateReport`. The
  results split into successes and failures, and the success rate lies within
  [0, 100].
- `run.dfy`, module `Run`: `run` itself, plus what the next run sees. Only
  the files whose attempt threw without leaving an output file stay pending. A
  file whose attempt threw after the write had created its output is reported as failed but never retried,
  because its output file exists. A clean run leaves nothing to do.
  The two-file example has one success, one failure and a 50% rate.
- `seqs.dfy` (order-preserving `Filter`, subsequence relation, `Flatten`) and
  `wrappers.dfy` (`Option`) are shared helpers.

Names with the same stem share an output name: `a.docx` and `a.doc` both
convert to `a.pdf`. Once either has been converted, discovery skips both
(`Discovery.OutputNameCollision`, `Discovery.CollidingFilesAreBothSkipped`).
`Run.RerunLeavesOnlyFailures` takes this into account: the next pending list is
the previously pending files whose PDF was not written. That can be fewer than
the failed files.

Two further facts about the code:
- `getFilesToConvert` catches a missing input folder and returns an empty list
  (lines 59-61), so discovery never yields an error value.
- The success rate is a ratio of a sub-count, so it lies within [0, 100]. For an
  empty result list JavaScript computes 0/0 = NaN, which the model writes as
  `None`.

## Model

| member | source | states |
|---|---|---|
| Seqs.Filter | batch-converter.mjs:41-44 | `Array.filter` keeps only elements that satisfy the predicate and keeps every element that does. The result is never longer than the input |
| Seqs.FilterIsSubsequence | batch-converter.mjs:41-44 | `Array.filter` keeps the original order: the result is an order-preserving subsequence of the input |
| Seqs.FilterInherits | batch-converter.mjs:49-53 | a property that holds of every element of the input holds of every element the filter keeps |
| Seqs.SubsequenceMembers | batch-converter.mjs:41-53 | every element of a subsequence occurs in the sequence it was taken from |
| Seqs.FilterPartition | batch-converter.mjs:159-160 | filtering by a predicate and by its negation splits a sequence: the lengths add up and the multisets add up to the whole |
| Seqs.FilterCompose | batch-converter.mjs:41-53 | filtering twice in a row equals filtering once by the conjunction of the two predicates |
| Seqs.FilterKeepsAll | batch-converter.mjs:49-53 | a filter every element passes returns the sequence unchanged |
| NodePath.LastIndexOf | batch-converter.mjs:42 | returns the position of the last occurrence of a character, or -1 when it does not occur |
| NodePath.ExtName | batch-converter.mjs:42 | `path.extname` is a proper tail of the name that starts at the last dot. It is empty exactly when the name has no dot, has its only dot first, or is `..` |
| NodePath.BaseName | batch-converter.mjs:50 | `path.basename(name, suffix)` is a prefix of the name. It cuts the suffix off when the suffix is a non-empty tail, and returns the whole name otherwise |
| NodePath.StemAndExtension | batch-converter.mjs:50 | a name's stem (basename without its extname) is non-empty, and stem followed by extension is the name again |
| NodePath.HiddenFileHasNoExtension | batch-converter.mjs:42 | `.docx` has no extension, so a hidden file is never taken for a Word document |
| NodePath.LastDotWins | batch-converter.mjs:42 | `a.tar.xls` has extension `.xls`: only the part after the last dot counts |
| NodePath.PdfExtension | batch-converter.mjs:42 | a name longer than four characters that ends in `.pdf` has extension `.pdf` |
| NodePath.DotSplit | batch-converter.mjs:50 | `stem.ext` (no dot in `ext`) has extension `.ext` and stem `stem` |
| Discovery.OutputName | batch-converter.mjs:50 | the output name ends in `.pdf`, and what precedes `.pdf`, followed by the input's extension, is the input name |
| Discovery.ScanListing | batch-converter.mjs:40-53 | the office list holds only entries whose lower-cased extension is supported, and holds every such listing entry. The pending list holds only office files whose PDF is absent, and every office file whose PDF is absent |
| Discovery.Discover | batch-converter.mjs:34-63 | `getFilesToConvert` returns nothing for a missing folder. Otherwise a listing entry is pending if and only if it is an office file whose PDF is absent |
| Discovery.DiscoveryKeepsOrder | batch-converter.mjs:40-53 | the office list is a subsequence of the listing, the pending list a subsequence of the office list, and so the pending list keeps the listing's order |
| Discovery.ScanCounts | batch-converter.mjs:55 | the logged "already converted" count equals the number of office files whose PDF exists, so it is never negative |
| Discovery.ToLower | batch-converter.mjs:42 | lower-casing keeps the length |
| Discovery.ToLowerLowers | batch-converter.mjs:42 | lower-casing leaves no ASCII capital, and changes a character only by mapping a capital to its small letter |
| Discovery.ToLowerIdempotent | batch-converter.mjs:42 | lower-casing an already lower-cased string changes nothing |
| Discovery.IsOfficeFile | batch-converter.mjs:41-44 | the filter test of lines 42-43: the lower-cased extension is one of the six supported ones (case-insensitivity is stated on `Discovery.CaseInsensitive`) |
| Discovery.LastDotUnchanged | batch-converter.mjs:42 | lower-casing a name leaves its last dot where it was |
| Discovery.ExtNameOfLower | batch-converter.mjs:42 | the extension of the lower-cased name is the lower-cased extension |
| Discovery.CaseInsensitive | batch-converter.mjs:42-43 | for every name, the lower-cased name is again an entry name, and the name is an office file exactly when its lower-cased form is |
| Discovery.UpperCaseExtension | batch-converter.mjs:42-43 | an instance of case-insensitivity: `a.DOCX` is an office file |
| Discovery.UpperCaseDocx | batch-converter.mjs:42 | `a.DOCX` has extension `.DOCX` |
| Discovery.LowerDocx | batch-converter.mjs:42 | `.DOCX` lower-cases to `.docx` |
| Discovery.OfficeFiles | batch-converter.mjs:41-44 | the first filter of discovery is never longer than the listing and keeps only office files (that it keeps every office file is stated on `Discovery.ScanListing`) |
| Discovery.Unconverted | batch-converter.mjs:49-53 | the second filter of discovery is never longer than its input and keeps only files whose PDF is not among the existing names (that it keeps every such file is stated on `Discovery.ScanListing`) |
| Discovery.Scan.AlreadyConverted | batch-converter.mjs:55 | the logged "already converted" count: office files minus pending files (its meaning is stated on `Discovery.ScanCounts`) |
| Discovery.PdfIsNotSupported | batch-converter.mjs:15 | `.pdf` is not one of the supported extensions |
| Discovery.OutputIsNotOffice | batch-converter.mjs:41-50 | an output always has extension `.pdf` and is never discovered as an office input. Converting a file never targets the file itself |
| Discovery.RediscoverIsStable | batch-converter.mjs:41-53 | running discovery over its own result, with the same outputs present, returns that result unchanged |
| Discovery.RerunAfterConversion | batch-converter.mjs:49-53 | once new PDFs appear, discovery returns exactly the previously pending files whose PDF is not among them |
| Discovery.RerunAfterFullConversion | batch-converter.mjs:49-53 | once every pending file's PDF exists, discovery returns the empty list |
| Discovery.NothingPendingWhenAllConverted | batch-converter.mjs:49-53 | a listing whose every entry already has its PDF has nothing pending |
| Discovery.OutputOfDottedName | batch-converter.mjs:73 | for every stem and dot-free extension, the output of `stem.ext` is `stem.pdf` |
| Discovery.DocxOutput | batch-converter.mjs:73 | `a.docx` converts to `a.pdf` |
| Discovery.DocOutput | batch-converter.mjs:73 | `a.doc` converts to `a.pdf` |
| Discovery.OutputNameCollision | batch-converter.mjs:50 | `a.docx` and `a.doc` share the output `a.pdf` |
| Discovery.StemCollision | batch-converter.mjs:50 | for every stem, `stem.docx` and `stem.doc` share the output `stem.pdf` |
| Discovery.CollidingFilesAreBothSkipped | batch-converter.mjs:49-53 | for every stem, with `stem.pdf` present neither `stem.docx` nor `stem.doc` is pending |
| Chunking.ChunkArray | batch-converter.mjs:146-152 | the chunks concatenate to the input. Each has 1 to `size` items, all but the last have exactly `size`, and there are ceil(n/size) of them (none for an empty input) |
| Chunking.ChunkingIsUnique | batch-converter.mjs:146-152 | two chunkings of the same sequence with the same size are equal, so `ChunkArray`'s contract determines its result |
| Chunking.EmptyChunking | batch-converter.mjs:148-149 | a chunking has no chunks exactly when the input is empty |
| Chunking.SingleChunk | batch-converter.mjs:148-149 | there is a single chunk exactly when the input fits in one, and then it is the whole input. Otherwise the first chunk is full |
| Conversion.ConvertSingleFile | batch-converter.mjs:65-120 | the result names the input file and succeeds exactly when the attempt completed. A success names the PDF that discovery derives for the file. A failure carries the thrown message |
| Conversion.ConvertAll | batch-converter.mjs:131-132 | the sequential reference for a chunk: one result per name, in order; result i names file i and succeeds exactly when that file's attempt completed (`Conversion.ConvertBatch` is proved equal to it) |
| Conversion.MaxConcurrent | batch-converter.mjs:16 | the concurrency limit is never 0. A non-zero option is used as given; an absent or zero option becomes 3 |
| Conversion.ConvertBatch | batch-converter.mjs:122-144 | chunked conversion returns exactly one result per input name. Result i is the conversion of name i, the same as converting the names one after another |
| Conversion.Written | batch-converter.mjs:85 | the PDFs a batch leaves in the output folder: the outputs of the attempts that completed or threw after the write had created their file (its relation to the results is stated on `Conversion.WrittenBySuccessesAndPartialWrites`) |
| Conversion.WrittenBySuccessesAndPartialWrites | batch-converter.mjs:85-110 | the PDFs left in the output folder after a batch are the outputs the successes report, plus the outputs of the attempts that failed after the write had created their file |
| Conversion.WrittenCovered | batch-converter.mjs:85-110 | every PDF a batch leaves is reported by a success or belongs to an attempt that failed after the write |
| Conversion.ReportedAreWritten | batch-converter.mjs:85-98 | every PDF a success reports is left in the output folder |
| Conversion.PartialAreWritten | batch-converter.mjs:85-88 | an attempt that failed after the write still leaves its PDF in the output folder |
| Conversion.FailureIsolation | batch-converter.mjs:101-110 | a file's result depends only on that file's own attempt, so a failing sibling cannot change it |
| Report.GenerateReport | batch-converter.mjs:158-173 | successful and failed partition the results: their counts add up to the total and their multisets to the results' multiset. Every entry of successful succeeded and every entry of failed did not. The rate is absent only for no results, and otherwise is the success rate of the two list lengths |
| Report.ReportKeepsOrder | batch-converter.mjs:159-160 | successful and failed are both order-preserving subsequences of the results |
| Report.SuccessRate | batch-converter.mjs:173 | the success rate times the total equals 100 times the successes, i.e. successes / total * 100. It lies in [0, 100], is 100 exactly when all results succeed, 0 exactly when none do, and undefined for zero results |
| Run.Run | batch-converter.mjs:203-237 | a run stops without converting exactly when discovery finds nothing. Otherwise it converts exactly the discovered files, one result per file in order, and reports on those results |
| Run.UnwrittenFilesFailed | batch-converter.mjs:101-110 | a batch file whose PDF was not written is a file whose attempt threw without leaving an output file, so its result is a failure |
| Run.RerunLeavesOnlyFailures | batch-converter.mjs:49-53 | after a run, the next run's pending list is the previously pending files whose PDF was not written, in order. Each of them threw without leaving an output file |
| Run.PartialWriteIsSkipped | batch-converter.mjs:49-53 | a pending file whose attempt threw after the write at line 85 had created its output is reported as failed, yet the next run does not list it, because its output file exists |
| Run.CleanRunIsIdempotent | batch-converter.mjs:73-85 | when every pending file converts, the next run finds nothing to convert |
| Run.ReportedOutputsMatchDiscovery | batch-converter.mjs:195-199 | every file the report lists as converted names the PDF that discovery derives for it |
| Run.ScenarioNames | batch-converter.mjs:41-50 | `a.docx` and `b.pptx` are office files, and `a.docx` converts to `a.pdf` |
| Run.ScenarioDocx | batch-converter.mjs:42 | `a.docx` has extension `.docx` and stem `a` |
| Run.ScenarioPptx | batch-converter.mjs:42 | `b.pptx` has extension `.pptx` |
| Run.ScenarioLowerCase | batch-converter.mjs:42 | lower-casing leaves `.docx` and `.pptx` unchanged |
| Run.ScenarioDiscovery | batch-converter.mjs:34-57 | with no PDFs present, `a.docx` and `b.pptx` are both pending, in listing order |
| Run.ScenarioOfficeFiles | batch-converter.mjs:41-44 | both `a.docx` and `b.pptx` pass the office filter |
| Run.NothingExistsNothingSkipped | batch-converter.mjs:49-53 | with an empty output folder the second filter keeps every file |
| Run.ScenarioResults | batch-converter.mjs:122-143 | when `b.pptx` is corrupt, the results are a success `a.pdf` followed by a failure carrying the engine's message |
| Run.TwoFileScenario | batch-converter.mjs:158-173 | with one of two files corrupt, the report shows a 50% success rate |

## Left out

- File system access (`existsSync`, `readdirSync`, `readFileSync`, `writeFileSync`, `mkdirSync`, `stat`) is not modelled. The listing and the output-folder contents are parameters, sampled once per discovery; files changing during a run are not modelled.
- The Nutrient engine calls `load`, `exportPDF` and `close` are opaque library code. One `Attempt` value per file stands for the whole read, load, export and write sequence.
- A failing `close` in the `finally` block (lines 111-119) only logs a warning and never changes a result, so it is not modelled.
- `Promise.all` concurrency and the 2-second `delay` between chunks are not modelled. Each chunk is converted sequentially; `Promise.all` keeps results in input order, so the order matches.
- Floating-point sizes, durations, the total and average duration, the compression ratio, and the `toFixed`/`padStart` box layout of the report are not modelled.
- Logging (`log`, timestamps, console output, the log file) is not modelled.
- The constructor's default folders and output-folder creation are not modelled, and neither are `interactiveMode`, converter.mjs, run-batch.mjs or advanced-batch.mjs. The last three are entry points that wire options to I/O.
- Discovery.ToLower: lowers ASCII letters only, whereas JavaScript's `toLowerCase` follows Unicode. For the membership test against the ASCII extension list the result is the same, but that equivalence is not proved.
- NodePath.ExtName: covers a single POSIX path segment only, which is what a directory listing yields. Paths containing separators and the Windows `path.win32` rules are not modelled.
- NodePath.BaseName: covers a single segment only, for the same reason. Node's trailing-separator handling is not modelled.
- Conversion.MaxConcurrent: models only integer options. JavaScript truthiness of other values (strings, `NaN`, fractions) is not modelled.
- An engine call that never settles is not modelled: the source sets no timeout on `load` or `exportPDF` (lines 81-82), and such a call would stop `Promise.all` (line 132) so that `run` never reports. Every result in the model assumes each attempt finishes.
- Run.Run: requires a non-negative concurrency option when discovery finds files, because then a negative `maxConcurrent` makes the `chunkArray` loop run forever. With nothing pending the run returns before chunking (lines 211-213), and any option is admitted. The top-level `catch` at lines 234-236 cannot be reached in the model, because every modelled step is total.
- Chunking.ChunkArray: requires `size > 0`. With a non-positive size and a non-empty array the source loop never terminates; with an empty array it returns no chunks, which the model does not cover.

=== FILE: chunking.dfy ===
/** `BatchConverter.chunkArray`: consecutive slices of at most `size` items. */
module Chunking {
  import opened Seqs

  /** The partition laws of a chunking of `s`: the chunks concatenate back to
      `s`, none is empty or longer than `size`, and all but the last are full. */
  ghost predicate IsChunking<T>(s: seq<T>, size: nat, chunks: seq<seq<T>>)
  {
    && Flatten(chunks) == s
    && (forall i :: 0 <= i < |chunks| ==> 0 < |chunks[i]| <= size)
    && (forall i :: 0 <= i < |chunks| - 1 ==> |chunks[i]| == size)
  }

  /** Integer ceiling of `n / d` for a positive divisor. */
  function CeilDiv(n: nat, d: nat): nat
    requires d > 0
  {
    (n + d - 1) / d
  }

  /** `k` is the ceiling of `n / d` when `k` full blocks of `d` cover `n` and
      `k - 1` do not. */
  lemma {:induction false} CeilDivUnique(n: nat, d: nat, k: nat)
    requires d > 0
    requires k * d >= n
    requires k == 0 || (k - 1) * d < n
    ensures CeilDiv(n, d) == k
  {
    var m := n + d - 1;
    var q, r := m / d, m % d;
    assert m == q * d + r && 0 <= r < d;
    if k == 0 {
      assert n == 0;
    } else {
      assert (k - 1) * d == k * d - d;
      if q < k {
        MulMonotone(q, k - 1, d);
      } else if q > k {
        MulMonotone(k + 1, q, d);
      }
    }
  }

  lemma MulMonotone(a: int, b: int, d: nat)
    requires a <= b
    ensures a * d <= b * d
  {
    assert b * d - a * d == (b - a) * d;
  }

  /** The slicing loop of `chunkArray`: start at 0, take `array.slice(i, i + size)`,
      step by `size`. A non-positive `size` would never end the loop. */
  method ChunkArray<T>(items: seq<T>, size: nat) returns (chunks: seq<seq<T>>)
    requires size > 0
    ensures IsChunking(items, size, chunks)
    ensures |chunks| == CeilDiv(|items|, size)
  {
    chunks := [];
    var i := 0;
    while i < |items|
      invariant i == |chunks| * size
      invariant Flatten(chunks) == if i <= |items| then items[..i] else items
      invariant forall k :: 0 <= k < |chunks| ==> 0 < |chunks[k]| <= size
      invariant forall k :: 0 <= k < |chunks| - 1 ==> |chunks[k]| == size
      invariant i < |items| ==> forall k :: 0 <= k < |chunks| ==> |chunks[k]| == size
      invariant chunks == [] || i - size < |items|
    {
      var end := if i + size < |items| then i + size else |items|;
      var chunk := items[i..end];
      FlattenAppend(chunks, chunk);
      assert items[..i] + chunk == items[..end];
      assert (|chunks| + 1) * size == |chunks| * size + size;
      chunks := chunks + [chunk];
      i := i + size;
    }
    assert items[..|items|] == items;
    CeilDivUnique(|items|, size, |chunks|);
  }

  /** The partition laws leave no freedom: a sequence has exactly one chunking
      for a given size, so `ChunkArray`'s contract pins its result down. */
  lemma {:induction false} ChunkingIsUnique<T>(s: seq<T>, size: nat, a: seq<seq<T>>, b: seq<seq<T>>)
    requires IsChunking(s, size, a) && IsChunking(s, size, b)
    ensures a == b
    decreases |a|
  {
    if a == [] || b == [] {
      EmptyChunking(s, size, a);
      EmptyChunking(s, size, b);
    } else {
      var restA, restB := Flatten(a[1..]), Flatten(b[1..]);
      assert s == a[0] + restA && s == b[0] + restB;
      SingleChunk(s, size, a);
      SingleChunk(s, size, b);
      assert |a[0]| == |b[0]|;
      assert a[0] == s[..|a[0]|] && b[0] == s[..|b[0]|];
      assert restA == s[|a[0]|..] && restB == s[|b[0]|..];
      assert IsChunking(restA, size, a[1..]);
      assert IsChunking(restA, size, b[1..]);
      ChunkingIsUnique(restA, size, a[1..], b[1..]);
      assert a == [a[0]] + a[1..] && b == [b[0]] + b[1..];
    }
  }

  /** A chunking is empty exactly when the chunked sequence is. */
  lemma EmptyChunking<T>(s: seq<T>, size: nat, chunks: seq<seq<T>>)
    requires IsChunking(s, size, chunks)
    ensures chunks == [] <==> s == []
  {
    if chunks != [] {
      assert |Flatten(chunks)| >= |chunks[0]| > 0;
    }
  }

  /** The first chunk is the whole sequence when it fits in one chunk, and
      exactly `size` items otherwise. */
  lemma SingleChunk<T>(s: seq<T>, size: nat, chunks: seq<seq<T>>)
    requires IsChunking(s, size, chunks) && chunks != []
    ensures |chunks| == 1 <==> |s| <= size
    ensures |chunks| == 1 ==> chunks[0] == s
    ensures |chunks| > 1 ==> |chunks[0]| == size
  {
    assert s == chunks[0] + Flatten(chunks[1..]);
    if |chunks| > 1 {
      assert |Flatten(chunks[1..])| >= |chunks[1]| > 0;
    }
  }
}

=== FILE: conversion.dfy ===
/** `BatchConverter.convertSingleFile` and `BatchConverter.convertBatch`.
    Reading the input, the engine's load and export, and writing the PDF are one
    opaque attempt per file; the source catches every error that attempt throws,
    so the attempt is a total function from file name to outcome. */
module Conversion {
  import opened Wrappers
  import opened Seqs
  import opened NodePath
  import opened Discovery
  import opened Chunking

  /** What happened when one file was read, loaded, exported and written.
      `writeFileSync` creates or truncates the output before it writes, so an
      error raised after that point (a full disk during the write, or the `stat`
      after it) leaves an output file behind: that is `ThrewAfterWrite`. An error
      that leaves no output file, raised before the `writeFileSync` call (read,
      load, export) or inside it before the file exists (the output cannot be
      opened), is `Threw`. */
  datatype Attempt = Completed | Threw(message: string) | ThrewAfterWrite(message: string)
  {
    /** Whether the output file exists once the attempt is over. */
    predicate LeavesOutput() { !Threw? }
  }

  datatype Outcome = Succeeded(outputName: EntryName) | Failed(error: string)

  /** The record `convertSingleFile` resolves to (sizes and durations left out). */
  datatype ConversionResult = ConversionResult(fileName: EntryName, outcome: Outcome)
  {
    predicate Success() { outcome.Succeeded? }
  }

  /** One file: a success names the PDF that discovery looks for; a failure
      carries the thrown message. No attempt escapes as an error. */
  function ConvertSingleFile(fileName: EntryName, engine: EntryName -> Attempt): (r: ConversionResult)
    ensures r.fileName == fileName
    ensures r.Success() <==> engine(fileName).Completed?
    ensures r.Success() ==> r.outcome.outputName == OutputName(fileName)
    ensures !r.Success() ==> r.outcome.error == engine(fileName).message
  {
    var outputName := OutputName(fileName);
    match engine(fileName)
    case Completed => ConversionResult(fileName, Succeeded(outputName))
    case Threw(message) => ConversionResult(fileName, Failed(message))
    case ThrewAfterWrite(message) => ConversionResult(fileName, Failed(message))
  }

  /** The sequential reference: one result per name, in order. */
  function ConvertAll(fileNames: seq<EntryName>, engine: EntryName -> Attempt): (results: seq<ConversionResult>)
    ensures |results| == |fileNames|
    ensures forall i :: 0 <= i < |results| ==>
              results[i].fileName == fileNames[i] &&
              (results[i].Success() <==> engine(fileNames[i]).Completed?)
  {
    seq(|fileNames|, i requires 0 <= i < |fileNames| => ConvertSingleFile(fileNames[i], engine))
  }

  lemma ConvertAllAppend(a: seq<EntryName>, b: seq<EntryName>, engine: EntryName -> Attempt)
    ensures ConvertAll(a + b, engine) == ConvertAll(a, engine) + ConvertAll(b, engine)
  {
    assert |ConvertAll(a + b, engine)| == |ConvertAll(a, engine) + ConvertAll(b, engine)|;
    forall i | 0 <= i < |a + b|
      ensures ConvertAll(a + b, engine)[i] == (ConvertAll(a, engine) + ConvertAll(b, engine))[i]
    {
      if i < |a| {
        assert (a + b)[i] == a[i];
      } else {
        assert (a + b)[i] == b[i - |a|];
      }
    }
  }

  /** `options.maxConcurrent || 3`: an absent or zero option means 3. */
  function MaxConcurrent(option: Option<int>): (n: int)
    ensures n != 0
    ensures n == 3 || option == Some(n)
    ensures option.Some? && option.value != 0 ==> n == option.value
  {
    match option
    case Some(m) => if m != 0 then m else 3
    case None => 3
  }

  /** `convertBatch`: chunk the names, convert each chunk, append its results.
      Chunking is invisible in the output: one result per name, in input order. */
  method ConvertBatch(fileNames: seq<EntryName>, maxConcurrent: nat, engine: EntryName -> Attempt)
    returns (results: seq<ConversionResult>)
    requires maxConcurrent > 0
    ensures |results| == |fileNames|
    ensures forall i :: 0 <= i < |results| ==> results[i] == ConvertSingleFile(fileNames[i], engine)
    ensures results == ConvertAll(fileNames, engine)
  {
    var chunks := ChunkArray(fileNames, maxConcurrent);
    results := [];
    for i := 0 to |chunks|
      invariant results == ConvertAll(Flatten(chunks[..i]), engine)
    {
      var chunk := chunks[i];
      var chunkResults := ConvertAll(chunk, engine);
      assert chunks[..i + 1] == chunks[..i] + [chunk];
      FlattenAppend(chunks[..i], chunk);
      ConvertAllAppend(Flatten(chunks[..i]), chunk, engine);
      results := results + chunkResults;
    }
    assert chunks[..|chunks|] == chunks;
  }

  /** The PDFs a batch over `fileNames` leaves in the output folder: the
      outputs of the attempts that left a file, that is, the attempts that
      completed or threw after `writeFileSync` had created it. */
  function Written(fileNames: seq<EntryName>, engine: EntryName -> Attempt): set<string>
  {
    set i | 0 <= i < |fileNames| && engine(fileNames[i]).LeavesOutput() :: OutputName(fileNames[i])
  }

  /** The PDFs the results report as written: the outputs of the successes. */
  function ReportedOutputs(results: seq<ConversionResult>): set<string>
  {
    set i | 0 <= i < |results| && results[i].Success() :: results[i].outcome.outputName
  }

  /** The outputs of the attempts that failed after the write had created their file. */
  function PartialOutputs(fileNames: seq<EntryName>, engine: EntryName -> Attempt): set<string>
  {
    set i | 0 <= i < |fileNames| && engine(fileNames[i]).ThrewAfterWrite? :: OutputName(fileNames[i])
  }

  lemma WrittenHolds(fileNames: seq<EntryName>, engine: EntryName -> Attempt, j: nat)
    requires j < |fileNames|
    ensures engine(fileNames[j]).LeavesOutput() ==> OutputName(fileNames[j]) in Written(fileNames, engine)
  {
  }

  /** The output folder after a batch holds the PDFs its successes report, and
      besides those exactly the outputs of the attempts that failed after the
      write had created their file. */
  lemma WrittenBySuccessesAndPartialWrites(fileNames: seq<EntryName>, engine: EntryName -> Attempt)
    ensures Written(fileNames, engine)
            == ReportedOutputs(ConvertAll(fileNames, engine)) + PartialOutputs(fileNames, engine)
  {
    WrittenCovered(fileNames, engine);
    ReportedAreWritten(fileNames, engine);
    PartialAreWritten(fileNames, engine);
  }

  lemma WrittenCovered(fileNames: seq<EntryName>, engine: EntryName -> Attempt)
    ensures forall x :: x in Written(fileNames, engine) ==>
              x in ReportedOutputs(ConvertAll(fileNames, engine)) || x in PartialOutputs(fileNames, engine)
  {
    var results := ConvertAll(fileNames, engine);
    forall x | x in Written(fileNames, engine)
      ensures x in ReportedOutputs(results) || x in PartialOutputs(fileNames, engine)
    {
      var i :| 0 <= i < |fileNames| && engine(fileNames[i]).LeavesOutput() && x == OutputName(fileNames[i]);
      if engine(fileNames[i]).Completed? {
        assert results[i].Success() && results[i].outcome.outputName == x;
      }
    }
  }

  lemma ReportedAreWritten(fileNames: seq<EntryName>, engine: EntryName -> Attempt)
    ensures forall x :: x in ReportedOutputs(ConvertAll(fileNames, engine)) ==> x in Written(fileNames, engine)
  {
    var results := ConvertAll(fileNames, engine);
    forall x | x in ReportedOutputs(results)
      ensures x in Written(fileNames, engine)
    {
      var i :| 0 <= i < |results| && results[i].Success() && x == results[i].outcome.outputName;
      WrittenHolds(fileNames, engine, i);
    }
  }

  lemma PartialAreWritten(fileNames: seq<EntryName>, engine: EntryName -> Attempt)
    ensures forall x :: x in PartialOutputs(fileNames, engine) ==> x in Written(fileNames, engine)
  {
    forall x | x in PartialOutputs(fileNames, engine)
      ensures x in Written(fileNames, engine)
    {
      var i :| 0 <= i < |fileNames| && engine(fileNames[i]).ThrewAfterWrite? && x == OutputName(fileNames[i]);
      WrittenHolds(fileNames, engine, i);
    }
  }

  /** Failure isolation: a file's result depends on its own attempt alone, so
      engines that agree on a file give it the same result at every position. */
  lemma FailureIsolation(fileNames: seq<EntryName>, e1: EntryName -> Attempt, e2: EntryName -> Attempt, i: nat)
    requires i < |fileNames| && e1(fileNames[i]) == e2(fileNames[i])
    ensures ConvertAll(fileNames, e1)[i] == ConvertAll(fileNames, e2)[i]
  {
  }
}

=== FILE: discovery.dfy ===
/** File discovery in `BatchConverter.getFilesToConvert`: keep the office
    documents of the input folder's listing, then drop those whose PDF already
    exists in the output folder. The listing and the names present in the output
    folder are parameters; `None` stands for an input folder that does not exist
    or cannot be listed. */
module Discovery {
  import opened Wrappers
  import opened Seqs
  import opened NodePath

  /** The extensions the converter accepts, compared after lower-casing. */
  const SupportedExtensions: seq<string> := [".docx", ".doc", ".pptx", ".ppt", ".xlsx", ".xls"]

  function LowerChar(c: char): char
  {
    if 'A' <= c <= 'Z' then (c as int + 32) as char else c
  }

  /** `String.prototype.toLowerCase` on the ASCII letters. */
  function ToLower(s: string): (r: string)
    ensures |r| == |s|
  {
    seq(|s|, i requires 0 <= i < |s| => LowerChar(s[i]))
  }

  /** Whether discovery keeps `name`: its extension, lower-cased, is supported. */
  predicate IsOfficeFile(name: EntryName)
  {
    ToLower(ExtName(name)) in SupportedExtensions
  }

  /** The PDF a file converts to: its base name without its extension, plus
      ".pdf". Discovery and conversion both derive it this way. */
  function OutputName(name: EntryName): (out: EntryName)
    ensures |out| > 4 && out[|out| - 4..] == ".pdf"
    ensures out[..|out| - 4] + ExtName(name) == name
  {
    var stem := BaseName(name, ExtName(name));
    StemAndExtension(name);
    var out := stem + ".pdf";
    assert out[..|out| - 4] == stem;
    out
  }

  /** The listing's office documents, in listing order. */
  function OfficeFiles(listing: seq<EntryName>): (office: seq<EntryName>)
    ensures |office| <= |listing|
    ensures forall i :: 0 <= i < |office| ==> IsOfficeFile(office[i])
  {
    Filter(IsOfficeFile, listing)
  }

  /** The files among `files` whose PDF is not yet among `existing`. */
  function Unconverted(files: seq<EntryName>, existing: set<string>): (rest: seq<EntryName>)
    ensures |rest| <= |files|
    ensures forall i :: 0 <= i < |rest| ==> OutputName(rest[i]) !in existing
  {
    Filter((f: EntryName) => OutputName(f) !in existing, files)
  }

  /** The two lists discovery computes from a readable folder. */
  datatype Scan = Scan(officeFiles: seq<EntryName>, pending: seq<EntryName>)
  {
    /** The "already converted" count that discovery logs. */
    function AlreadyConverted(): int
    {
      |officeFiles| - |pending|
    }
  }

  function ScanListing(listing: seq<EntryName>, existing: set<string>): (s: Scan)
    ensures forall i :: 0 <= i < |s.officeFiles| ==> IsOfficeFile(s.officeFiles[i])
    ensures forall i :: 0 <= i < |listing| && IsOfficeFile(listing[i]) ==> listing[i] in s.officeFiles
    ensures forall i :: 0 <= i < |s.pending| ==>
              IsOfficeFile(s.pending[i]) && OutputName(s.pending[i]) !in existing
    ensures forall i :: 0 <= i < |s.officeFiles| && OutputName(s.officeFiles[i]) !in existing
              ==> s.officeFiles[i] in s.pending
  {
    var office := OfficeFiles(listing);
    FilterInherits((f: EntryName) => OutputName(f) !in existing, IsOfficeFile, office);
    Scan(office, Unconverted(office, existing))
  }

  /** `getFilesToConvert`: the pending files, or nothing when the folder is missing. */
  function Discover(listing: Option<seq<EntryName>>, existing: set<string>): (pending: seq<EntryName>)
    ensures listing.None? ==> pending == []
    ensures forall i :: 0 <= i < |pending| ==>
              IsOfficeFile(pending[i]) && OutputName(pending[i]) !in existing
    ensures listing.Some? ==>
              forall i :: 0 <= i < |listing.value| ==>
                (IsOfficeFile(listing.value[i]) && OutputName(listing.value[i]) !in existing
                 <==> listing.value[i] in pending)
  {
    match listing
    case None => []
    case Some(files) => ScanListing(files, existing).pending
  }

  /** The files among `files` whose PDF is already among `existing`. */
  function HavingOutput(files: seq<EntryName>, existing: set<string>): seq<EntryName>
  {
    Filter((f: EntryName) => OutputName(f) in existing, files)
  }

  /** Discovery keeps the listing's order: the office files are a subsequence of
      the listing, and the pending files a subsequence of both. */
  lemma DiscoveryKeepsOrder(listing: seq<EntryName>, existing: set<string>)
    ensures IsSubsequence(ScanListing(listing, existing).officeFiles, listing)
    ensures IsSubsequence(ScanListing(listing, existing).pending, ScanListing(listing, existing).officeFiles)
    ensures IsSubsequence(Discover(Some(listing), existing), listing)
  {
    var office := OfficeFiles(listing);
    FilterIsSubsequence(IsOfficeFile, listing);
    FilterIsSubsequence((f: EntryName) => OutputName(f) !in existing, office);
    FilterCompose((f: EntryName) => OutputName(f) !in existing, IsOfficeFile,
                  (f: EntryName) => IsOfficeFile(f) && OutputName(f) !in existing, listing);
    FilterIsSubsequence((f: EntryName) => IsOfficeFile(f) && OutputName(f) !in existing, listing);
  }

  /** The logged "already converted" count is the number of office files whose
      PDF exists, hence never negative. */
  lemma {:induction false} ScanCounts(listing: seq<EntryName>, existing: set<string>)
    ensures ScanListing(listing, existing).AlreadyConverted()
            == |HavingOutput(OfficeFiles(listing), existing)|
  {
    FilterPartition((f: EntryName) => OutputName(f) !in existing,
                    (f: EntryName) => OutputName(f) in existing, OfficeFiles(listing));
  }

  /** Lower-casing leaves no ASCII capital behind, and it changes a character
      only by mapping a capital to its small letter. */
  lemma ToLowerLowers(s: string)
    ensures forall i :: 0 <= i < |s| ==> !('A' <= ToLower(s)[i] <= 'Z')
    ensures forall i :: 0 <= i < |s| ==>
              ToLower(s)[i] == s[i] || ('A' <= s[i] <= 'Z' && ToLower(s)[i] as int == s[i] as int + 32)
  {
  }

  /** Lower-casing twice is lower-casing once. */
  lemma ToLowerIdempotent(s: string)
    ensures ToLower(ToLower(s)) == ToLower(s)
  {
  }

  /** Lower-casing neither adds nor removes a dot, so the last dot stays put. */
  lemma LastDotUnchanged(n: string)
    ensures LastIndexOf(ToLower(n), '.') == LastIndexOf(n, '.')
  {
    var l := ToLower(n);
    assert forall i :: 0 <= i < |n| ==> (l[i] == '.' <==> n[i] == '.');
  }

  /** Lower-casing commutes with taking the extension. */
  lemma ExtNameOfLower(n: EntryName, l: EntryName)
    requires l == ToLower(n)
    ensures ExtName(l) == ToLower(ExtName(n))
  {
    LastDotUnchanged(n);
    var k := LastIndexOf(n, '.');
    assert l == ".." <==> n == "..";
    if !(k <= 0 || n == "..") {
      assert l[k..] == ToLower(n[k..]);
    }
  }

  /** The extension test ignores case: a name is an office file exactly when
      its lower-cased form is. */
  lemma CaseInsensitive(n: EntryName)
    ensures ToLower(n) != "" && '/' !in ToLower(n)
    ensures IsOfficeFile(n) <==> IsOfficeFile(ToLower(n))
  {
    var l := ToLower(n);
    assert forall i :: 0 <= i < |l| ==> l[i] != '/';
    var lower: EntryName := l;
    ExtNameOfLower(n, lower);
    ToLowerIdempotent(ExtName(n));
  }

  /** The extension test ignores case: `a.DOCX` is a Word document. */
  lemma UpperCaseExtension()
    ensures IsOfficeFile("a.DOCX")
  {
    UpperCaseDocx();
    LowerDocx();
    assert ".docx" in SupportedExtensions;
  }

  lemma UpperCaseDocx()
    ensures ExtName("a.DOCX") == ".DOCX"
  {
    DotSplit("a", "DOCX");
    assert "a" + "." + "DOCX" == "a.DOCX";
  }

  lemma LowerDocx()
    ensures ToLower(".DOCX") == ".docx"
  {
    var lowered := ToLower(".DOCX");
    assert lowered == ".docx";
  }

  /** Lower-cased, ".pdf" is none of the supported extensions. */
  lemma PdfIsNotSupported()
    ensures ToLower(".pdf") !in SupportedExtensions
  {
    var lower := ToLower(".pdf");
    assert lower == ".pdf";
  }

  /** A PDF output never looks like an office document, so it is never
      discovered as an input, and converting a file never overwrites the file. */
  lemma OutputIsNotOffice(name: EntryName)
    ensures ExtName(OutputName(name)) == ".pdf"
    ensures !IsOfficeFile(OutputName(name))
    ensures IsOfficeFile(name) ==> OutputName(name) != name
  {
    var out := OutputName(name);
    PdfExtension(out);
    PdfIsNotSupported();
  }

  /** Discovery applied to its own result, with the same outputs present, keeps
      every file: the pending list is a fixed point of the filter. */
  lemma RediscoverIsStable(listing: seq<EntryName>, existing: set<string>)
    ensures Discover(Some(Discover(Some(listing), existing)), existing) == Discover(Some(listing), existing)
  {
    var pending := Discover(Some(listing), existing);
    FilterKeepsAll(IsOfficeFile, pending);
    FilterKeepsAll((f: EntryName) => OutputName(f) !in existing, pending);
  }

  /** After the PDFs in `written` appear in the output folder, discovery returns
      exactly the previously pending files whose PDF is not among them. */
  lemma {:induction false} RerunAfterConversion(listing: seq<EntryName>, existing: set<string>, written: set<string>)
    ensures Discover(Some(listing), existing + written)
            == Unconverted(Discover(Some(listing), existing), written)
  {
    FilterCompose((f: EntryName) => OutputName(f) !in written,
                  (f: EntryName) => OutputName(f) !in existing,
                  (f: EntryName) => OutputName(f) !in existing + written,
                  OfficeFiles(listing));
  }

  /** Once every pending file's PDF exists, discovery finds nothing to do. */
  lemma RerunAfterFullConversion(listing: seq<EntryName>, existing: set<string>, written: set<string>)
    requires forall f :: f in Discover(Some(listing), existing) ==> OutputName(f) in written
    ensures Discover(Some(listing), existing + written) == []
  {
    var pending := Discover(Some(listing), existing);
    RerunAfterConversion(listing, existing, written);
    FilterIsSubsequence((f: EntryName) => OutputName(f) !in written, pending);
    SubsequenceMembers(Unconverted(pending, written), pending);
  }

  /** A dotted name's PDF is its stem plus ".pdf". */
  lemma OutputOfDottedName(stem: string, ext: string)
    requires stem != "" && ext != "" && '/' !in stem && '/' !in ext && '.' !in ext
    ensures OutputName(stem + "." + ext) == stem + ".pdf"
  {
    DotSplit(stem, ext);
  }

  lemma DocxOutput()
    ensures OutputName("a.docx") == "a.pdf"
  {
    OutputOfDottedName("a", "docx");
    assert "a" + "." + "docx" == "a.docx";
  }

  lemma DocOutput()
    ensures OutputName("a.doc") == "a.pdf"
  {
    OutputOfDottedName("a", "doc");
    assert "a" + "." + "doc" == "a.doc";
  }

  /** "a.docx" and "a.doc" share the PDF "a.pdf". */
  lemma OutputNameCollision()
    ensures OutputName("a.docx") == OutputName("a.doc") == "a.pdf"
  {
    DocxOutput();
    DocOutput();
  }

  /** A folder whose every entry already has its PDF has nothing pending. */
  lemma NothingPendingWhenAllConverted(listing: seq<EntryName>, existing: set<string>)
    requires forall i :: 0 <= i < |listing| ==> OutputName(listing[i]) in existing
    ensures Discover(Some(listing), existing) == []
  {
    DiscoveryKeepsOrder(listing, existing);
    SubsequenceMembers(Discover(Some(listing), existing), listing);
  }

  /** `stem.docx` and `stem.doc` both convert to `stem.pdf`. */
  lemma StemCollision(stem: string, docx: EntryName, doc: EntryName)
    requires stem != "" && '/' !in stem
    requires docx == stem + "." + "docx" && doc == stem + "." + "doc"
    ensures OutputName(docx) == OutputName(doc) == stem + ".pdf"
  {
    OutputOfDottedName(stem, "docx");
    OutputOfDottedName(stem, "doc");
  }

  /** Once `stem.pdf` exists, discovery skips both `stem.docx` and `stem.doc`. */
  lemma CollidingFilesAreBothSkipped(stem: string, docx: EntryName, doc: EntryName)
    requires stem != "" && '/' !in stem
    requires docx == stem + "." + "docx" && doc == stem + "." + "doc"
    ensures Discover(Some([docx, doc]), {stem + ".pdf"}) == []
  {
    StemCollision(stem, docx, doc);
    NothingPendingWhenAllConverted([docx, doc], {stem + ".pdf"});
  }
}

=== FILE: node_path.dfy ===
/** The two pieces of Node's POSIX `path` module that the converter relies on,
    `path.extname` and `path.basename(p, suffix)`, for a single path segment:
    the converter only ever applies them to the entries of a directory listing,
    which never contain the separator. */
module NodePath {

  /** A directory entry name: non-empty and free of the path separator. */
  type EntryName = s: string | s != "" && '/' !in s witness "a"

  /** Index of the last occurrence of `c` in `s`, or -1 when there is none. */
  function LastIndexOf(s: string, c: char): (k: int)
    ensures -1 <= k < |s|
    ensures k >= 0 ==> s[k] == c
    ensures forall j :: k < j < |s| ==> s[j] != c
    decreases |s|
  {
    if s == [] then -1
    else if s[|s| - 1] == c then |s| - 1
    else LastIndexOf(s[..|s| - 1], c)
  }

  /** `path.extname`: the tail from the last '.', except that a name with no dot,
      a name whose only dot is its first character (a hidden file such as
      ".docx"), and the name ".." have no extension. */
  function ExtName(name: EntryName): (ext: string)
    ensures |ext| < |name| && ext == name[|name| - |ext|..]
    ensures ext != "" ==> ext[0] == '.' && '.' !in ext[1..]
    ensures ext == "" <==> '.' !in name || name == ".." || (name[0] == '.' && '.' !in name[1..])
  {
    var k := LastIndexOf(name, '.');
    if k <= 0 || name == ".." then "" else name[k..]
  }

  /** `path.basename(name, suffix)`: the name with `suffix` cut off its end when
      `suffix` is a non-empty tail of it, and the whole name otherwise. */
  function BaseName(name: EntryName, suffix: string): (base: string)
    ensures |base| <= |name| && base == name[..|base|]
    ensures base == name || (suffix != "" && base + suffix == name)
    ensures suffix != "" && |suffix| <= |name| && name[|name| - |suffix|..] == suffix ==> base + suffix == name
  {
    if suffix != "" && |suffix| <= |name| && name[|name| - |suffix|..] == suffix
    then name[..|name| - |suffix|]
    else name
  }

  /** Cutting a name's own extension off with `BaseName` leaves a non-empty stem,
      and stem and extension put back together give the name. */
  lemma StemAndExtension(name: EntryName)
    ensures BaseName(name, ExtName(name)) + ExtName(name) == name
    ensures BaseName(name, ExtName(name)) != ""
  {
  }

  /** A hidden file has no extension, so ".docx" is not a Word document. */
  lemma HiddenFileHasNoExtension()
    ensures ExtName(".docx") == ""
  {
  }

  lemma LastDotWins()
    ensures ExtName("a.tar.xls") == ".xls"
  {
  }

  /** A name ending in ".pdf" after at least one more character has extension ".pdf". */
  lemma PdfExtension(name: EntryName)
    requires |name| > 4 && name[|name| - 4..] == ".pdf"
    ensures ExtName(name) == ".pdf"
  {
    assert name[|name| - 4] == '.';
    assert forall j :: |name| - 4 < j < |name| ==> name[j] != '.';
    assert LastIndexOf(name, '.') == |name| - 4;
  }

  /** A stem and an undotted extension joined by a dot split back apart. */
  lemma DotSplit(stem: string, ext: string)
    requires stem != "" && ext != "" && '/' !in stem && '/' !in ext && '.' !in ext
    ensures var name: EntryName := stem + "." + ext;
            ExtName(name) == "." + ext && BaseName(name, ExtName(name)) == stem
  {
    var name: EntryName := stem + "." + ext;
    assert name[|stem|] == '.';
    forall j | |stem| < j < |name|
      ensures name[j] != '.'
    {
      assert name[j] == ext[j - |stem| - 1];
    }
    assert LastIndexOf(name, '.') == |stem|;
    assert |name| >= 3;
    assert ExtName(name) == name[|stem|..];
    assert name[|stem|..] == "." + ext;
    assert name[..|stem|] == stem;
  }
}

=== FILE: report.dfy ===
/** The integer part of `BatchConverter.generateReport`: the results split into
    the successful and the failed ones, and the success rate. Sizes, durations
    and the compression ratio are floating-point sums and are not modelled. */
module Report {
  import opened Wrappers
  import opened Seqs
  import opened Conversion

  datatype Report = Report(
    total: nat,
    successful: seq<ConversionResult>,
    failed: seq<ConversionResult>,
    /** Percentage of successes; `None` where JavaScript divides 0 by 0. */
    successRate: Option<real>)

  predicate IsSuccess(r: ConversionResult) { r.Success() }

  predicate IsFailure(r: ConversionResult) { !r.Success() }

  function GenerateReport(results: seq<ConversionResult>): (rep: Report)
    ensures rep.total == |results| == |rep.successful| + |rep.failed|
    ensures multiset(rep.successful) + multiset(rep.failed) == multiset(results)
    ensures forall i :: 0 <= i < |rep.successful| ==> rep.successful[i].Success()
    ensures forall i :: 0 <= i < |rep.failed| ==> !rep.failed[i].Success()
    ensures rep.successRate.None? <==> results == []
    ensures rep.successRate.Some? ==> 0.0 <= rep.successRate.value <= 100.0
    ensures rep.successRate == Some(100.0) <==> results != [] && rep.failed == []
    ensures rep.successRate == SuccessRate(|rep.successful|, |results|)
  {
    var successful := Filter(IsSuccess, results);
    var failed := Filter(IsFailure, results);
    FilterPartition(IsSuccess, IsFailure, results);
    Report(|results|, successful, failed, SuccessRate(|successful|, |results|))
  }

  /** The report lists successes and failures in the order the results came in. */
  lemma ReportKeepsOrder(results: seq<ConversionResult>)
    ensures IsSubsequence(GenerateReport(results).successful, results)
    ensures IsSubsequence(GenerateReport(results).failed, results)
  {
    FilterIsSubsequence(IsSuccess, results);
    FilterIsSubsequence(IsFailure, results);
  }

  /** `successful.length / results.length * 100`, in exact arithmetic. */
  function SuccessRate(successes: nat, total: nat): (rate: Option<real>)
    requires successes <= total
    ensures rate.None? <==> total == 0
    ensures rate.Some? ==> 0.0 <= rate.value <= 100.0
    ensures rate == Some(100.0) <==> total > 0 && successes == total
    ensures rate == Some(0.0) <==> total > 0 && successes == 0
    ensures rate.Some? ==> rate.value * total as real == successes as real * 100.0
  {
    if total == 0 then None
    else
      var fraction := successes as real / total as real;
      Fraction(successes as real, total as real);
      Some(fraction * 100.0)
  }

  lemma Fraction(s: real, t: real)
    requires 0.0 <= s <= t && t > 0.0
    ensures 0.0 <= s / t <= 1.0
    ensures s / t == 1.0 <==> s == t
    ensures s / t == 0.0 <==> s == 0.0
  {
    assert (s / t) * t == s;
  }
}

=== FILE: run.dfy ===
/** `BatchConverter.run`: discover, stop if nothing is pending, otherwise
    convert in chunks and report; plus what a second run sees afterwards. */
module Run {
  import opened Wrappers
  import opened Seqs
  import opened NodePath
  import opened Discovery
  import opened Conversion
  import opened Report

  datatype RunOutcome =
    | NothingToConvert
    | Converted(pending: seq<EntryName>, results: seq<ConversionResult>, report: Report)

  /** One run over a folder listing (`None` when the folder is missing), the
      names present in the output folder, the `maxConcurrent` option and the
      per-file attempts. With files pending, a negative option would make
      `chunkArray` loop forever; with nothing pending the run stops first. */
  method Run(listing: Option<seq<EntryName>>, existing: set<string>,
             maxConcurrentOption: Option<int>, engine: EntryName -> Attempt)
    returns (outcome: RunOutcome)
    requires Discover(listing, existing) != [] ==>
               maxConcurrentOption.None? || maxConcurrentOption.value >= 0
    ensures outcome.NothingToConvert? <==> Discover(listing, existing) == []
    ensures outcome.Converted? ==> outcome.pending == Discover(listing, existing)
    ensures outcome.Converted? ==> |outcome.results| == |outcome.pending|
    ensures outcome.Converted? ==>
              forall i :: 0 <= i < |outcome.results| ==>
                outcome.results[i] == ConvertSingleFile(outcome.pending[i], engine)
    ensures outcome.Converted? ==> outcome.report.total == |outcome.pending| > 0
    ensures outcome.Converted? ==> outcome.report == GenerateReport(outcome.results)
  {
    var filesToConvert := Discover(listing, existing);
    if filesToConvert == [] {
      return NothingToConvert;
    }
    var results := ConvertBatch(filesToConvert, MaxConcurrent(maxConcurrentOption), engine);
    outcome := Converted(filesToConvert, results, GenerateReport(results));
  }

  /** The files of a batch whose PDF was not written are files whose attempt
      threw without leaving an output file. */
  lemma {:induction false} UnwrittenFilesFailed(fileNames: seq<EntryName>, engine: EntryName -> Attempt)
    ensures var rest := Unconverted(fileNames, Written(fileNames, engine));
            forall i :: 0 <= i < |rest| ==> engine(rest[i]).Threw?
  {
    var rest := Unconverted(fileNames, Written(fileNames, engine));
    FilterIsSubsequence((f: EntryName) => OutputName(f) !in Written(fileNames, engine), fileNames);
    SubsequenceMembers(rest, fileNames);
    forall i | 0 <= i < |rest|
      ensures engine(rest[i]).Threw?
    {
      var j :| 0 <= j < |fileNames| && fileNames[j] == rest[i];
      WrittenHolds(fileNames, engine, j);
    }
  }

  /** After a run, the next run's pending list is exactly the previously
      pending files whose PDF was not written, and each of them threw without
      leaving an output file. */
  lemma RerunLeavesOnlyFailures(listing: seq<EntryName>, existing: set<string>, engine: EntryName -> Attempt)
    ensures var pending := Discover(Some(listing), existing);
            var written := Written(pending, engine);
            var next := Discover(Some(listing), existing + written);
            && next == Unconverted(pending, written)
            && IsSubsequence(next, pending)
            && forall i :: 0 <= i < |next| ==> engine(next[i]).Threw?
  {
    var pending := Discover(Some(listing), existing);
    var written := Written(pending, engine);
    RerunAfterConversion(listing, existing, written);
    FilterIsSubsequence((f: EntryName) => OutputName(f) !in written, pending);
    UnwrittenFilesFailed(pending, engine);
  }

  /** When every pending file converts, a second run has nothing to do. */
  lemma CleanRunIsIdempotent(listing: seq<EntryName>, existing: set<string>, engine: EntryName -> Attempt)
    requires forall f :: f in Discover(Some(listing), existing) ==> engine(f).Completed?
    ensures var pending := Discover(Some(listing), existing);
            Discover(Some(listing), existing + Written(pending, engine)) == []
  {
    var pending := Discover(Some(listing), existing);
    var next := Discover(Some(listing), existing + Written(pending, engine));
    RerunLeavesOnlyFailures(listing, existing, engine);
    SubsequenceMembers(next, pending);
  }

  /** A file whose attempt failed after the write had created its output is
      reported as failed, yet the next run does not retry it: the output it
      left behind counts as converted. */
  lemma PartialWriteIsSkipped(listing: seq<EntryName>, existing: set<string>, engine: EntryName -> Attempt)
    ensures var pending := Discover(Some(listing), existing);
            var next := Discover(Some(listing), existing + Written(pending, engine));
            forall i :: 0 <= i < |pending| && engine(pending[i]).ThrewAfterWrite? ==>
              !ConvertSingleFile(pending[i], engine).Success() && pending[i] !in next
  {
    var pending := Discover(Some(listing), existing);
    var next := Discover(Some(listing), existing + Written(pending, engine));
    forall i | 0 <= i < |pending| && engine(pending[i]).ThrewAfterWrite?
      ensures pending[i] !in next
    {
      WrittenHolds(pending, engine, i);
    }
  }

  /** Every success the report lists names the PDF that discovery checks for. */
  lemma ReportedOutputsMatchDiscovery(fileNames: seq<EntryName>, engine: EntryName -> Attempt)
    ensures var rep := GenerateReport(ConvertAll(fileNames, engine));
            forall i :: 0 <= i < |rep.successful| ==>
              rep.successful[i].outcome.outputName == OutputName(rep.successful[i].fileName)
  {
    var results := ConvertAll(fileNames, engine);
    var named := (r: ConversionResult) => r.outcome.Succeeded? ==> r.outcome.outputName == OutputName(r.fileName);
    assert forall i :: 0 <= i < |results| ==> named(results[i]);
    FilterInherits(IsSuccess, named, results);
  }

  /** Attempts in which "b.pptx" is rejected as corrupt and everything else converts. */
  function CorruptPptx(f: EntryName): Attempt
  {
    if f == "b.pptx" then Threw("corrupt file") else Completed
  }

  lemma ScenarioDocx()
    ensures ExtName("a.docx") == ".docx" && BaseName("a.docx", ".docx") == "a"
  {
    DotSplit("a", "docx");
    assert "a" + "." + "docx" == "a.docx";
  }

  lemma ScenarioPptx()
    ensures ExtName("b.pptx") == ".pptx"
  {
    DotSplit("b", "pptx");
    assert "b" + "." + "pptx" == "b.pptx";
  }

  lemma ScenarioLowerCase()
    ensures ToLower(".docx") == ".docx" && ToLower(".pptx") == ".pptx"
  {
    var lowerDocx, lowerPptx := ToLower(".docx"), ToLower(".pptx");
    assert lowerDocx == ".docx";
    assert lowerPptx == ".pptx";
  }

  lemma ScenarioNames()
    ensures IsOfficeFile("a.docx") && IsOfficeFile("b.pptx")
    ensures OutputName("a.docx") == "a.pdf"
  {
    ScenarioDocx();
    ScenarioPptx();
    ScenarioLowerCase();
    assert ".docx" in SupportedExtensions && ".pptx" in SupportedExtensions;
  }

  /** With no PDFs present, both documents are pending, in listing order. */
  lemma ScenarioDiscovery()
    ensures Discover(Some(["a.docx", "b.pptx"]), {}) == ["a.docx", "b.pptx"]
  {
    var listing: seq<EntryName> := ["a.docx", "b.pptx"];
    ScenarioOfficeFiles(listing);
    NothingExistsNothingSkipped(listing);
  }

  lemma ScenarioOfficeFiles(listing: seq<EntryName>)
    requires listing == ["a.docx", "b.pptx"]
    ensures OfficeFiles(listing) == listing
  {
    ScenarioNames();
    FilterKeepsAll(IsOfficeFile, listing);
  }

  /** With an empty output folder no file counts as converted. */
  lemma NothingExistsNothingSkipped(files: seq<EntryName>)
    ensures Unconverted(files, {}) == files
  {
    var none: set<string> := {};
    FilterKeepsAll((f: EntryName) => OutputName(f) !in none, files);
  }

  /** Two pending documents, one of them corrupt: one success named "a.pdf"
      and one failure carrying the engine's message, in listing order. */
  lemma ScenarioResults()
    ensures ConvertAll(["a.docx", "b.pptx"], CorruptPptx)
            == [ConversionResult("a.docx", Succeeded("a.pdf")), ConversionResult("b.pptx", Failed("corrupt file"))]
  {
    ScenarioNames();
  }

  /** With one of the two documents corrupt, the report shows a 50% success rate. */
  lemma TwoFileScenario()
    ensures GenerateReport(ConvertAll(["a.docx", "b.pptx"], CorruptPptx)).successRate == Some(50.0)
  {
    ScenarioResults();
    var ok := ConversionResult("a.docx", Succeeded("a.pdf"));
    var bad := ConversionResult("b.pptx", Failed("corrupt file"));
    assert [ok, bad][1..] == [bad];
    assert Filter(IsSuccess, [bad]) == [];
    assert Filter(IsSuccess, [ok, bad]) == [ok];
    assert SuccessRate(1, 2) == Some(50.0);
  }
}

=== FILE: seqs.dfy ===
/** Sequence operations shared by the discovery, batching and reporting layers:
    an order-preserving filter (JavaScript's `Array.prototype.filter`), the
    subsequence relation it is specified against, and concatenation of a
    sequence of sequences. */
module Seqs {

  /** `a` is obtained from `b` by deleting elements and keeping the rest in order. */
  predicate IsSubsequence<T(==)>(a: seq<T>, b: seq<T>)
    decreases |b|
  {
    if a == [] then true
    else if b == [] then false
    else (a[0] == b[0] && IsSubsequence(a[1..], b[1..])) || IsSubsequence(a, b[1..])
  }

  /** Every element of a subsequence is an element of the whole. */
  lemma {:induction false} SubsequenceMembers<T>(a: seq<T>, b: seq<T>)
    requires IsSubsequence(a, b)
    ensures forall i :: 0 <= i < |a| ==> a[i] in b
    decreases |b|
  {
    if a != [] {
      if a[0] == b[0] && IsSubsequence(a[1..], b[1..]) {
        SubsequenceMembers(a[1..], b[1..]);
        forall i | 1 <= i < |a|
          ensures a[i] in b
        {
          assert a[i] == a[1..][i - 1];
          assert a[i] in b[1..];
        }
      } else {
        SubsequenceMembers(a, b[1..]);
        forall i | 0 <= i < |a|
          ensures a[i] in b
        {
          assert a[i] in b[1..];
        }
      }
    }
  }

  /** The elements of `s` that satisfy `p`, in their original order. */
  function Filter<T(==)>(p: T -> bool, s: seq<T>): (r: seq<T>)
    ensures |r| <= |s|
    ensures forall i :: 0 <= i < |r| ==> p(r[i])
    ensures forall i :: 0 <= i < |s| && p(s[i]) ==> s[i] in r
    decreases |s|
  {
    if s == [] then []
    else if p(s[0]) then [s[0]] + Filter(p, s[1..])
    else Filter(p, s[1..])
  }

  /** A filter's result is an order-preserving subsequence of its input. */
  lemma {:induction false} FilterIsSubsequence<T>(p: T -> bool, s: seq<T>)
    ensures IsSubsequence(Filter(p, s), s)
    decreases |s|
  {
    if s != [] {
      FilterIsSubsequence(p, s[1..]);
      if p(s[0]) {
        assert ([s[0]] + Filter(p, s[1..]))[1..] == Filter(p, s[1..]);
      }
    }
  }

  /** Whatever holds of every element of `s` holds of every element Filter keeps. */
  lemma {:induction false} FilterInherits<T>(p: T -> bool, q: T -> bool, s: seq<T>)
    requires forall i :: 0 <= i < |s| ==> q(s[i])
    ensures forall i :: 0 <= i < |Filter(p, s)| ==> q(Filter(p, s)[i])
  {
    if s != [] {
      FilterInherits(p, q, s[1..]);
      if p(s[0]) {
        assert Filter(p, s) == [s[0]] + Filter(p, s[1..]);
      }
    }
  }

  /** Filtering by `p` and by its negation splits `s`: the two results together
      hold every element of `s` exactly as often as `s` does. */
  lemma {:induction false} FilterPartition<T>(p: T -> bool, q: T -> bool, s: seq<T>)
    requires forall x :: q(x) == !p(x)
    ensures |Filter(p, s)| + |Filter(q, s)| == |s|
    ensures multiset(Filter(p, s)) + multiset(Filter(q, s)) == multiset(s)
    decreases |s|
  {
    if s != [] {
      FilterPartition(p, q, s[1..]);
      assert s == [s[0]] + s[1..];
    }
  }

  /** Filtering twice is filtering once by the conjunction. */
  lemma {:induction false} FilterCompose<T>(p: T -> bool, q: T -> bool, r: T -> bool, s: seq<T>)
    requires forall x :: r(x) == (p(x) && q(x))
    ensures Filter(p, Filter(q, s)) == Filter(r, s)
    decreases |s|
  {
    if s != [] {
      FilterCompose(p, q, r, s[1..]);
      if q(s[0]) {
        var t := Filter(q, s[1..]);
        assert Filter(q, s) == [s[0]] + t;
        assert ([s[0]] + t)[1..] == t;
      }
    }
  }

  /** A filter keeps a sequence whole exactly when every element passes. */
  lemma {:induction false} FilterKeepsAll<T>(p: T -> bool, s: seq<T>)
    requires forall i :: 0 <= i < |s| ==> p(s[i])
    ensures Filter(p, s) == s
    decreases |s|
  {
    if s != [] {
      FilterKeepsAll(p, s[1..]);
      assert s == [s[0]] + s[1..];
    }
  }

  /** Concatenation of a sequence of sequences, front to back. */
  function Flatten<T>(ss: seq<seq<T>>): seq<T>
    decreases |ss|
  {
    if ss == [] then [] else ss[0] + Flatten(ss[1..])
  }

  lemma {:induction false} FlattenAppend<T>(ss: seq<seq<T>>, t: seq<T>)
    ensures Flatten(ss + [t]) == Flatten(ss) + t
    decreases |ss|
  {
    if ss != [] {
      assert (ss + [t])[1..] == ss[1..] + [t];
      FlattenAppend(ss[1..], t);
    }
  }
}

=== FILE: wrappers.dfy ===
/** Optional values, used where the converter can come back empty-handed
    (an input folder that cannot be listed, a success rate over no results). */
module Wrappers {

  datatype Option<+T> = None | Some(value: T)
}
